=== FILE: README.md ===
# Bonk-it lane crossing, modelled in Dafny

A model of the simulation inside `script.js` of the Bonk-it game: a dog
crosses ten horizontal lanes from the bottom safe lane to the top goal lane
while hammers slide along the road lanes. The model keeps the game's state
(lives, score, the active flag, the player's position and the lanes with
their obstacles) as an immutable `GameState` and every reaction of the game
as a pure function of that state:

- `Lanes`: the lane table (four safe lanes, six road lanes with fixed
  direction and speed) and the lookup of the lane a row falls in.
- `Geometry`: the strict axis-aligned box overlap test.
- `Motion`: one frame of obstacle motion with wrap-around.
- `Generation`: filling every road lane with two to four obstacles from an
  injected stream of random draws in [0, 1).
- `Input`: the key handler (clamped one-tile moves, +10 for upward
  progress, the win on the top row).
- `Collision`: the first-hit collision check and the life it costs.
- `Game`: the frame (`Tick`: move, then check), runs of frames, the
  restart, a session of events, and the invariant all of them keep.

The tile size and the board width are parameters (`Config`); the board is
always ten tiles tall. Positions and speeds are exact `real`s. Randomness is
a function `rng: nat -> real` read through a cursor in the order the game
draws: per road lane one draw for the count, then per obstacle one draw for
the width, one for the start offset and one for the colour (the colour value
itself is dropped).

Behaviour of `script.js` worth knowing:

- There are no levels, power-ups, shield, score multiplier or pause in
  `script.js`. Reaching the top row simply stops the game as a win.
- When a collision takes the last life, the player is not moved back to
  the start tile.
- Generated obstacles start at a random offset in [0, gameWidth) plus
  i/n of the board width, so a fresh obstacle can start up to two board
  widths from the left edge. The band [-width, gameWidth] therefore does
  not hold of fresh obstacles. The model proves the band
  [-width, 2 * gameWidth] for every reachable state, shows that
  [-width, gameWidth] is kept once entered, and shows that every moving
  obstacle enters it after finitely many frames; every obstacle of a
  reachable state moves, so this applies to all of them.
- The player's x is not snapped to the tile grid. It starts at
  gameWidth/2 - tileSize/2, and a leftward move clamps at 0.
- The restart runs one frame at once, because `resetGame` ends by calling
  `gameLoop`. `Reset` includes that frame. It can never cost a life,
  because the start lane is safe.
- As written, every frame fails while drawing the lanes, before its
  collision check and before it schedules the next frame (see
  "## Findings"). `Tick`, `Run`, `Reset` and `Replay` model the frame as
  evidently intended; `FrameAsWritten` and `ReplayAsWritten` model it as
  written.

## Model

| member | source | states |
|---|---|---|
| Lanes.LaneTable | script.js:37-46 | ten lanes, lane i at row i * tileSize, top and bottom lanes safe, every road speed positive, no obstacles before generation |
| Lanes.FindLane | script.js:221-223 | the result is the first lane in table order whose span [y, y + tileSize) contains the row; none means no lane contains it |
| Lanes.FindLaneOnBoard | script.js:221-223 | on the table layout, a row inside lane i's span is found in lane i |
| Lanes.FindLaneOffBoard | script.js:221-223 | a row above or below the board is in no lane |
| Lanes.StartRowIsSafe | script.js:46 | the starting row 9 * tileSize is found in the bottom lane, which is safe |
| Lanes.ShapedIsStacked | script.js:37-46 | any lanes with the table's layout start at row j * tileSize and keep the table's safe/road kinds |
| Geometry.OverlapsIffSharedInterior | script.js:229-232 | the four strict inequalities hold exactly when the open interiors of the two boxes share a point |
| Geometry.TouchingDoesNotOverlap | script.js:229-232 | boxes that only touch along a vertical or a horizontal edge do not collide |
| Geometry.OverlapsSymmetric | script.js:229-232 | the overlap test does not depend on argument order |
| Motion.StepObstacle | script.js:118-127 | only x changes; left lanes move to x - speed unless the box is then wholly left of 0, when x becomes gameWidth; right lanes move to x + speed unless that passes gameWidth, when x becomes -width |
| Motion.UpdateKeepsShape | script.js:114-132 | motion changes only the x of road-lane obstacles: safe lanes, lane templates, obstacle counts and each obstacle's y, width, height and speed are unchanged |
| Motion.StepPreservesBand | script.js:118-127 | with speed and width non-negative, an obstacle within [-width, hi] for any hi at or beyond gameWidth stays there |
| Motion.UpdatePreservesBand | script.js:114-132 | the band is kept for every obstacle of every lane |
| Motion.EventuallyOnScreen | script.js:118-127 | an obstacle with positive speed, wherever it starts, is within [-width, gameWidth] after finitely many frames |
| Motion.ReachesBandWithin | script.js:118-127 | an obstacle at most k speed-steps beyond the band reaches it |
| Generation.ObstacleCount | script.js:52 | floor(r * 3) + 2 gives two to four obstacles for a draw in [0, 1) |
| Generation.ObstacleWidth | script.js:54 | the width is one or two tiles |
| Generation.SpreadBounds | script.js:63 | obstacle i's share i * gameWidth / n of the spread lies in [0, gameWidth] |
| Generation.StartOffset | script.js:55-63 | the start x lies in [spread, spread + gameWidth) and so in [0, 2 * gameWidth) |
| Generation.MakeObstacle | script.js:54-69 | an obstacle has the lane's y and speed, height tileSize, width one or two tiles, and a spread-out start x |
| Generation.MakeObstacles | script.js:53-70 | a lane gets n obstacles, each fresh for the lane and within its share of the spread; obstacle i takes its width from the lane's draw 3i and its offset from draw 3i + 1 |
| Generation.GenerateLane | script.js:51-71 | a road lane gets two to four fresh obstacles and consumes one draw plus three per obstacle; a safe lane is untouched and consumes nothing |
| Generation.GenerateAll | script.js:156-178 | every lane keeps its template, each road lane holds two to four obstacles, and every obstacle is fresh for its lane |
| State.StartInBounds | script.js:10-12 | the start tile (gameWidth/2 - tileSize/2, 9 * tileSize) lies on the board |
| Input.MovePlayer | script.js:189-202 | each arrow moves exactly one tile along its axis when a whole tile of room is left, and otherwise stops at that board edge; the other axis is unchanged; the player stays on the board; other keys do nothing |
| Input.KeyDown | script.js:184-214 | inactive games ignore keys; in an active game the player makes the clamped move of the key; the score rises by exactly 10 when the new row is above the old one; the game stops exactly when the player is on row 0; lives and lanes are never touched |
| Input.ScoreOnlyForUpwardMove | script.js:187-206 | a press scores exactly when the game is active, the key is up and the player is not already on row 0; any other press, clamped ones included, leaves the score unchanged |
| Input.WinOnTopRow | script.js:209-210 | in an active game a press ends the game exactly when the move lands on row 0 |
| Collision.FirstHit | script.js:227-245 | the result is the first obstacle in list order that the player's box overlaps; none exactly when no obstacle overlaps |
| Collision.LoseLife | script.js:234-242 | one life is lost; with lives left the player returns to the start tile, otherwise the game stops and the player stays put |
| Collision.CheckCollision | script.js:219-249 | a hit is reported exactly when the first lane containing the player's row is a road with an overlapping obstacle; a hit costs exactly one life however many obstacles overlap; no hit changes nothing |
| Game.Tick | script.js:252-264 | a stopped game is frozen; an active one moves the obstacles and then, exactly when the player overlaps a moved obstacle in its road lane, loses one life as `LoseLife` describes, and otherwise changes nothing else; the score never changes |
| Game.InitialState | script.js:20-72 | at load time lives are 3, the score 0, the game active, the player on the start tile, and the lanes are the table's, refilled by the generator: every road lane holds two to four obstacles, each fresh for its lane |
| Game.LoadedAsWritten | script.js:267-278 | as the game actually runs, a session starts from the load state with its obstacles moved once by the failing first frame, and nothing else changed |
| Game.InitialStateValid | script.js:20-72 | the load state satisfies the invariant |
| Game.GeneratedLanesValid | script.js:156-178 | freshly generated lanes keep the table layout, and every obstacle has positive speed and lies within [-width, 2 * gameWidth] |
| Game.TickPreservesInv | script.js:252-264 | a frame keeps lives in [0, 3], stops the game at 0 lives, keeps the player on the board, every obstacle moving and every obstacle in its band |
| Game.KeyDownPreservesInv | script.js:184-214 | a key press keeps the invariant |
| Game.Reset | script.js:146-181 | the restart zeroes the score, keeps the number of lanes and only moves the draw cursor forward |
| Game.ResetRestoresGame | script.js:146-181 | after the restart and the frame it runs, lives are 3, the score is 0, the game is active, the player is on the start tile and the lanes are the fresh obstacles moved once |
| Game.ResetPreservesInv | script.js:146-181 | the restarted game satisfies the invariant |
| Game.StoppedGameIsFrozen | script.js:252-253 | once the game has stopped, no number of frames changes anything |
| Game.RunKeepsScore | script.js:252-264 | frames never change the score and cost at most one life each |
| Game.RunPreservesInv | script.js:252-264 | any number of frames keeps the invariant |
| Game.Step | script.js:184-264 | only a restart consumes random draws |
| Game.StepPreservesInv | script.js:146-264 | a key press, a frame or a restart keeps the invariant |
| Game.ReplayPreservesInv | script.js:146-264 | any session of key presses, frames and restarts from a valid state keeps the invariant |
| Game.FrameAsWritten | script.js:252-258 | a frame as written moves the obstacles exactly as the intended frame does, and leaves lives, score, player and the active flag unchanged |
| Game.StepAsWritten | script.js:146-181 | as written, a frame event changes nothing, a restart sets lives to 3 and a key press keeps lives |
| Game.ReplayAsWrittenKeepsLives | script.js:252-264 | as written, no session of events ever costs a life |
| Game.FrameAsWrittenMissesHit | script.js:103 | a hammer that only touches the player before the frame and slides onto it during the frame costs a life in the intended frame but not in the frame as written |
| Game.ObstaclesOfValidGameReenter | script.js:118-127 | every obstacle of a state satisfying the invariant is in a road lane and, moving on its own, is within [-width, gameWidth] after finitely many frames |
| Game.FourHopsFromStart | script.js:190-206 | on a 400-wide board with 40-pixel tiles, four up-presses from (180, 360) reach (180, 200) with 40 points |

## Left out

- Drawing (`drawPlayer`, `drawLanes`, clearing the canvas) is rendering only.
- The HUD text and the game-over screen (`updateGameInfo`, the display part of `gameOver`) are display only; the model keeps the `gameActive` flag that `gameOver` clears.
- Button and keydown wiring are input glue; key presses and restarts are `Event`s.
- The player image and its load and error handlers are an external asset; the model starts from the load state, before the first frame.
- `requestAnimationFrame` scheduling is left out. A run of frames is `Run`, which applies `Tick` repeatedly; a stopped game is frozen, which is what ending the self-rescheduling chain amounts to.
- A restart while a frame chain is still running would add a second chain, so two frames would run per display refresh. The model has no display refresh: `Replay` accepts any number of `Frame` events between other events, which covers any such interleaving, but nothing ties frames to refreshes.
- Obstacle colours are presentation. The colour draw is still consumed, so the draw cursor stays in step with the game.
- `Math.random` is replaced by an injected stream of draws in [0, 1). Its distribution is not modelled.
- Floating-point rounding is not modelled: positions, speeds and the spread i * gameWidth / n are exact reals.
- The drawing code reads `obstacles` of safe lanes, which have no such field. In the model a safe lane simply has no obstacles. The failure this causes in the frame is recorded under "## Findings".

## Findings

| source | as written | input that shows it | evidently intended | confidence | as-written member | corrected member |
|---|---|---|---|---|---|---|
| script.js:103 | `drawLanes` calls `lane.obstacles.forEach` for every lane, outside the road-lane block that ends at line 101. The safe lanes (lines 37, 40, 43, 46) have no `obstacles`, so every frame throws there, after `updateObstacles` (257) and before `checkCollision` (261) and `requestAnimationFrame` (263). The load and each restart therefore move the obstacles once, then the frame chain ends and no life is ever lost. | any frame; the first one, at load, already fails on the top lane (line 37). With a 40-pixel tile, a hammer at x = 220 in the left lane at row 40 and the player at (180, 40), the two boxes only touch; the hammer moves to 217.5, and the intended frame costs a life and the frame as written does not. | draw obstacles only for road lanes, so each frame moves the obstacles, checks for a collision and schedules the next frame | high; not executed | Game.FrameAsWritten, Game.LoadedAsWritten, Game.ReplayAsWrittenKeepsLives, Game.FrameAsWrittenMissesHit | Game.Tick |

=== FILE: collision.dfy ===
/**
  Collision detection: find the lane the player's row falls in and, if it
  is a road, scan its obstacles in order; only the first hit counts.
 */
module Collision {
  import opened Options
  import opened Config
  import opened Geometry
  import opened Lanes
  import opened State

  predicate Hits(p: Player, o: Obstacle, cfg: Config) {
    Overlaps(PlayerBox(p, cfg), o.Bounds())
  }

  /** The index of the first obstacle, in list order, that the player overlaps. */
  function FirstHit(p: Player, obstacles: seq<Obstacle>, cfg: Config): (r: Option<nat>)
    ensures r.Some? ==> r.value < |obstacles| && Hits(p, obstacles[r.value], cfg)
    ensures r.Some? ==> forall j :: 0 <= j < r.value ==> !Hits(p, obstacles[j], cfg)
    ensures r.None? <==> forall j :: 0 <= j < |obstacles| ==> !Hits(p, obstacles[j], cfg)
  {
    if |obstacles| == 0 then None
    else if Hits(p, obstacles[0], cfg) then Some(0)
    else match FirstHit(p, obstacles[1..], cfg)
      case None => None
      case Some(i) => Some(i + 1)
  }

  /**
    Reference definition of a collision: the first lane containing the
    player's row is a road, and some obstacle of it overlaps the player.
   */
  ghost predicate InDanger(s: GameState, cfg: Config) {
    exists i, j ::
      && FirstLaneAt(s.lanes, cfg.tileSize, s.player.y, i)
      && s.lanes[i].Road?
      && 0 <= j < |s.lanes[i].obstacles|
      && Hits(s.player, s.lanes[i].obstacles[j], cfg)
  }

  /** Whether a collision happened, and the state after it. */
  datatype Outcome = Outcome(hit: bool, state: GameState)

  /**
    One life lost: with lives left the player goes back to the start
    tile; with none left the game stops and the player stays put.
   */
  function LoseLife(s: GameState, cfg: Config): (r: GameState)
    ensures r.lives == s.lives - 1
    ensures r.score == s.score && r.lanes == s.lanes
    ensures r.lives > 0 ==> r.player == StartPlayer(cfg) && r.active == s.active
    ensures r.lives <= 0 ==> !r.active && r.player == s.player
  {
    var lives := s.lives - 1;
    if lives <= 0 then s.(lives := lives, active := false)
    else s.(lives := lives, player := StartPlayer(cfg))
  }

  /**
    The collision check. It reports a hit exactly when the player is in
    danger, and then loses exactly one life however many obstacles
    overlap; without a hit nothing changes.
   */
  function CheckCollision(s: GameState, cfg: Config): (r: Outcome)
    ensures r.hit <==> InDanger(s, cfg)
    ensures !r.hit ==> r.state == s
    ensures r.hit ==> r.state == LoseLife(s, cfg)
  {
    match FindLane(s.lanes, cfg.tileSize, s.player.y)
    case None => Outcome(false, s)
    case Some(i) =>
      if s.lanes[i].Safe? then Outcome(false, s)
      else match FirstHit(s.player, s.lanes[i].obstacles, cfg)
        case None => Outcome(false, s)
        case Some(_) => Outcome(true, LoseLife(s, cfg))
  }
}

=== FILE: config.dfy ===
/**
  The fixed dimensions of the playfield. The board is always ten lanes tall,
  so the game height is derived from the tile size; the width is the
  canvas width, taken as a parameter.
 */
module Config {

  datatype Config = Config(tileSize: real, gameWidth: real) {

    /** A playfield a one-tile player fits into. */
    predicate Valid() {
      tileSize > 0.0 && gameWidth >= tileSize
    }

    function GameHeight(): real {
      10.0 * tileSize
    }

    /** The starting tile: horizontally centred on the bottom lane. */
    function StartX(): real {
      gameWidth / 2.0 - tileSize / 2.0
    }

    function StartY(): real {
      GameHeight() - tileSize
    }
  }
}

=== FILE: game.dfy ===
/**
  The game as a whole: the initial state, the per-frame tick, restarting,
  and the invariant every one of them keeps.
 */
module Game {
  import opened Config
  import opened Lanes
  import opened State
  import opened Motion
  import opened Generation
  import opened Input
  import opened Collision

  /**
    The state every reachable game is in: lives within [0, 3] with the game
    stopped once they are gone, the player on the board, the lanes laid
    out as in the table, and every obstacle moving forward within two
    board widths of the left edge.
   */
  predicate Inv(s: GameState, cfg: Config) {
    && 0 <= s.lives <= StartLives
    && (s.lives == 0 ==> !s.active)
    && InBounds(s.player, cfg)
    && Shaped(s.lanes, cfg.tileSize)
    && AllSane(s.lanes)
    && AllMoving(s.lanes)
    && AllInBand(s.lanes, 2.0 * cfg.gameWidth)
  }

  /** Lives, score, player and flag of a fresh game, around the given lanes. */
  function FreshState(lanes: seq<Lane>, cfg: Config): GameState {
    GameState(StartLives, 0, true, StartPlayer(cfg), lanes)
  }

  /** A game state together with the draw cursor after producing it. */
  datatype Drawn = Drawn(state: GameState, next: nat)

  /** The state at load time: the table's road lanes filled from the draws at k. */
  function InitialState(cfg: Config, rng: nat -> real, k: nat): (r: Drawn)
    requires cfg.Valid() && ValidDraws(rng)
    ensures r.state.lives == StartLives && r.state.score == 0 && r.state.active
    ensures r.state.player == StartPlayer(cfg)
    ensures Shaped(r.state.lanes, cfg.tileSize)
    ensures r.state.lanes == GenerateAll(LaneTable(cfg.tileSize), cfg, rng, k).lanes
    ensures forall i :: 0 <= i < |r.state.lanes| && r.state.lanes[i].Road? ==>
      2 <= |r.state.lanes[i].obstacles| <= 4
    ensures forall i, j :: 0 <= i < |r.state.lanes| && 0 <= j < |r.state.lanes[i].Obstacles()| ==>
      Fresh(r.state.lanes[i].Obstacles()[j], LaneTable(cfg.tileSize)[i], cfg)
  {
    var g := GenerateAll(LaneTable(cfg.tileSize), cfg, rng, k);
    Drawn(FreshState(g.lanes, cfg), g.next)
  }

  /**
    One frame: while the game is active, move every obstacle, then check
    for a collision against the moved obstacles. A stopped game is frozen.
   */
  function Tick(s: GameState, cfg: Config): (r: GameState)
    ensures !s.active ==> r == s
    ensures r.score == s.score
    ensures r.lives == s.lives || r.lives == s.lives - 1
    ensures s.active ==> r.lanes == UpdateObstacles(s.lanes, cfg.gameWidth)
    ensures s.active ==>
      (r.lives == s.lives - 1 <==> InDanger(s.(lanes := UpdateObstacles(s.lanes, cfg.gameWidth)), cfg))
    ensures var m := s.(lanes := UpdateObstacles(s.lanes, cfg.gameWidth));
      && (s.active && !InDanger(m, cfg) ==> r == m)
      && (s.active && InDanger(m, cfg) ==> r == LoseLife(m, cfg))
  {
    if !s.active then s
    else CheckCollision(s.(lanes := UpdateObstacles(s.lanes, cfg.gameWidth)), cfg).state
  }

  /** n frames in a row. */
  function Run(s: GameState, cfg: Config, n: nat): GameState
    decreases n
  {
    if n == 0 then s else Run(Tick(s, cfg), cfg, n - 1)
  }

  /** The restart: a fresh game with newly generated obstacles, then the first frame it starts. */
  function Reset(s: GameState, cfg: Config, rng: nat -> real, k: nat): (r: Drawn)
    requires cfg.Valid() && ValidDraws(rng)
    ensures |r.state.lanes| == |s.lanes| && r.next >= k
    ensures r.state.score == 0
  {
    var g := GenerateAll(s.lanes, cfg, rng, k);
    Drawn(Tick(FreshState(g.lanes, cfg), cfg), g.next)
  }

  /** Freshly generated lanes over a table-shaped board satisfy the lane part of the invariant. */
  lemma GeneratedLanesValid(lanes: seq<Lane>, cfg: Config, rng: nat -> real, k: nat)
    requires cfg.Valid() && ValidDraws(rng) && Shaped(lanes, cfg.tileSize)
    ensures var g := GenerateAll(lanes, cfg, rng, k).lanes;
      Shaped(g, cfg.tileSize) && AllSane(g) && AllMoving(g) && AllInBand(g, 2.0 * cfg.gameWidth)
  {
  }

  lemma InitialStateValid(cfg: Config, rng: nat -> real, k: nat)
    requires cfg.Valid() && ValidDraws(rng)
    ensures Inv(InitialState(cfg, rng, k).state, cfg)
  {
  }

  /** A tick keeps the invariant. */
  lemma TickPreservesInv(s: GameState, cfg: Config)
    requires cfg.Valid() && Inv(s, cfg)
    ensures Inv(Tick(s, cfg), cfg)
  {
    if s.active {
      UpdateKeepsShape(s.lanes, cfg.gameWidth);
      UpdatePreservesBand(s.lanes, cfg.gameWidth, 2.0 * cfg.gameWidth);
      StartInBounds(cfg);
    }
  }

  /** A key press keeps the invariant. */
  lemma KeyDownPreservesInv(s: GameState, key: Key, cfg: Config)
    requires cfg.Valid() && Inv(s, cfg)
    ensures Inv(KeyDown(s, key, cfg), cfg)
  {
  }

  /**
    Restarting yields a full-life, zero-score, active game with the player
    on the start tile, despite the frame it runs at once: that frame finds
    the player in the safe start lane, so it only moves the obstacles.
   */
  lemma ResetRestoresGame(s: GameState, cfg: Config, rng: nat -> real, k: nat)
    requires cfg.Valid() && ValidDraws(rng) && Shaped(s.lanes, cfg.tileSize)
    ensures var r := Reset(s, cfg, rng, k).state;
      && r.lives == StartLives && r.score == 0 && r.active
      && r.player == StartPlayer(cfg)
      && r.lanes == UpdateObstacles(GenerateAll(s.lanes, cfg, rng, k).lanes, cfg.gameWidth)
  {
    var g := GenerateAll(s.lanes, cfg, rng, k).lanes;
    var moved := FreshState(g, cfg).(lanes := UpdateObstacles(g, cfg.gameWidth));
    UpdateKeepsShape(g, cfg.gameWidth);
    StartRowIsSafe(moved.lanes, cfg.tileSize);
    assert !InDanger(moved, cfg);
  }

  /** The restarted game satisfies the invariant. */
  lemma ResetPreservesInv(s: GameState, cfg: Config, rng: nat -> real, k: nat)
    requires cfg.Valid() && ValidDraws(rng) && Shaped(s.lanes, cfg.tileSize)
    ensures Inv(Reset(s, cfg, rng, k).state, cfg)
  {
    var g := GenerateAll(s.lanes, cfg, rng, k).lanes;
    GeneratedLanesValid(s.lanes, cfg, rng, k);
    StartInBounds(cfg);
    TickPreservesInv(FreshState(g, cfg), cfg);
  }

  /** A stopped game stays exactly as it is, however many frames pass. */
  lemma {:induction false} StoppedGameIsFrozen(s: GameState, cfg: Config, n: nat)
    requires !s.active
    ensures Run(s, cfg, n) == s
    decreases n
  {
    if n > 0 {
      StoppedGameIsFrozen(Tick(s, cfg), cfg, n - 1);
    }
  }

  /** Frames never change the score and cost at most one life each. */
  lemma {:induction false} RunKeepsScore(s: GameState, cfg: Config, n: nat)
    ensures Run(s, cfg, n).score == s.score
    ensures s.lives - n <= Run(s, cfg, n).lives <= s.lives
    decreases n
  {
    if n > 0 {
      RunKeepsScore(Tick(s, cfg), cfg, n - 1);
    }
  }

  /** Any number of frames keeps the invariant. */
  lemma {:induction false} RunPreservesInv(s: GameState, cfg: Config, n: nat)
    requires cfg.Valid() && Inv(s, cfg)
    ensures Inv(Run(s, cfg, n), cfg)
    decreases n
  {
    if n > 0 {
      TickPreservesInv(s, cfg);
      RunPreservesInv(Tick(s, cfg), cfg, n - 1);
    }
  }

  /** What the game reacts to: a key, an animation frame, or the restart button. */
  datatype Event = Press(key: Key) | Frame | Restart

  function Step(s: GameState, e: Event, cfg: Config, rng: nat -> real, k: nat): (r: Drawn)
    requires cfg.Valid() && ValidDraws(rng)
    ensures r.next >= k
    ensures !e.Restart? ==> r.next == k
  {
    match e
    case Press(key) => Drawn(KeyDown(s, key, cfg), k)
    case Frame => Drawn(Tick(s, cfg), k)
    case Restart => Reset(s, cfg, rng, k)
  }

  /** A whole session: the events in order, threading the draw cursor. */
  function Replay(s: GameState, events: seq<Event>, cfg: Config, rng: nat -> real, k: nat): (r: Drawn)
    requires cfg.Valid() && ValidDraws(rng)
    ensures r.next >= k
    decreases |events|
  {
    if |events| == 0 then Drawn(s, k)
    else
      var d := Step(s, events[0], cfg, rng, k);
      Replay(d.state, events[1..], cfg, rng, d.next)
  }

  /** Every event keeps the invariant. */
  lemma StepPreservesInv(s: GameState, e: Event, cfg: Config, rng: nat -> real, k: nat)
    requires cfg.Valid() && ValidDraws(rng) && Inv(s, cfg)
    ensures Inv(Step(s, e, cfg, rng, k).state, cfg)
  {
    match e
    case Press(key) => KeyDownPreservesInv(s, key, cfg);
    case Frame => TickPreservesInv(s, cfg);
    case Restart => ResetPreservesInv(s, cfg, rng, k);
  }

  /**
    Whatever the events and the draws, a session that starts from the load
    state keeps lives in [0, 3], the player on the board and every obstacle
    within [-width, 2 * gameWidth].
   */
  lemma {:induction false} ReplayPreservesInv(s: GameState, events: seq<Event>, cfg: Config, rng: nat -> real, k: nat)
    requires cfg.Valid() && ValidDraws(rng) && Inv(s, cfg)
    ensures Inv(Replay(s, events, cfg, rng, k).state, cfg)
    decreases |events|
  {
    if |events| > 0 {
      var d := Step(s, events[0], cfg, rng, k);
      StepPreservesInv(s, events[0], cfg, rng, k);
      ReplayPreservesInv(d.state, events[1..], cfg, rng, d.next);
    }
  }

  /**
    A frame as the game actually runs it: the obstacles move, then drawing
    the lanes fails on the top lane, a safe lane without an obstacle list,
    so neither the collision check nor the request for the next frame is
    reached. Nothing but obstacle x changes.
   */
  function FrameAsWritten(s: GameState, cfg: Config): (r: GameState)
    ensures r.lives == s.lives && r.score == s.score
    ensures r.player == s.player && r.active == s.active
    ensures AllSane(s.lanes) ==> AllSane(r.lanes)
    ensures r.lanes == Tick(s, cfg).lanes
    ensures forall i :: 0 <= i < |s.lanes| ==> i < |r.lanes| && SameTemplate(r.lanes[i], s.lanes[i])
  {
    if !s.active then s
    else
      UpdateKeepsShape(s.lanes, cfg.gameWidth);
      s.(lanes := UpdateObstacles(s.lanes, cfg.gameWidth))
  }

  /**
    The state a session starts from as the game actually runs: the load
    state after its one failing frame, which moves the obstacles once and
    checks nothing.
   */
  function LoadedAsWritten(cfg: Config, rng: nat -> real, k: nat): (r: Drawn)
    requires cfg.Valid() && ValidDraws(rng)
    ensures var d := InitialState(cfg, rng, k);
      && r.next == d.next
      && r.state.lives == StartLives && r.state.score == 0 && r.state.active
      && r.state.player == StartPlayer(cfg)
      && r.state.lanes == UpdateObstacles(d.state.lanes, cfg.gameWidth)
  {
    var d := InitialState(cfg, rng, k);
    Drawn(FrameAsWritten(d.state, cfg), d.next)
  }

  /**
    Events as the game actually handles them, in a session that starts from
    `LoadedAsWritten`. Restarting runs one more failing frame; no animation
    frame is ever scheduled after it, so a frame event finds no callback and
    changes nothing.
   */
  function StepAsWritten(s: GameState, e: Event, cfg: Config, rng: nat -> real, k: nat): (r: Drawn)
    requires cfg.Valid() && ValidDraws(rng)
    ensures r.next >= k
    ensures e.Frame? ==> r == Drawn(s, k)
    ensures e.Restart? ==> r.state.lives == StartLives
    ensures !e.Restart? ==> r.state.lives == s.lives
  {
    match e
    case Press(key) => Drawn(KeyDown(s, key, cfg), k)
    case Frame => Drawn(s, k)
    case Restart =>
      var g := GenerateAll(s.lanes, cfg, rng, k);
      Drawn(FrameAsWritten(FreshState(g.lanes, cfg), cfg), g.next)
  }

  function ReplayAsWritten(s: GameState, events: seq<Event>, cfg: Config, rng: nat -> real, k: nat): (r: Drawn)
    requires cfg.Valid() && ValidDraws(rng)
    ensures r.next >= k
    decreases |events|
  {
    if |events| == 0 then Drawn(s, k)
    else
      var d := StepAsWritten(s, events[0], cfg, rng, k);
      ReplayAsWritten(d.state, events[1..], cfg, rng, d.next)
  }

  /**
    As the game actually runs, no session ever costs a life: lives stay
    what they were, or are three again after a restart.
   */
  lemma {:induction false} ReplayAsWrittenKeepsLives(s: GameState, events: seq<Event>, cfg: Config, rng: nat -> real, k: nat)
    requires cfg.Valid() && ValidDraws(rng)
    ensures var r := ReplayAsWritten(s, events, cfg, rng, k).state;
      r.lives == s.lives || r.lives == StartLives
    decreases |events|
  {
    if |events| > 0 {
      var d := StepAsWritten(s, events[0], cfg, rng, k);
      ReplayAsWrittenKeepsLives(d.state, events[1..], cfg, rng, d.next);
    }
  }

  /**
    A hammer that only touches the player's right edge in the leftward
    lane at row 40 slides onto the player in one frame: the intended frame
    costs a life, the frame as written does not.
   */
  lemma FrameAsWrittenMissesHit()
    ensures var cfg := Config(40.0, 400.0);
      var table := LaneTable(40.0);
      var lanes := table[1 := table[1].(obstacles := [Obstacle(220.0, 40.0, 40.0, 40.0, 2.5)])];
      var s := GameState(StartLives, 0, true, Player(180.0, 40.0), lanes);
      && !Hits(s.player, lanes[1].obstacles[0], cfg)
      && Tick(s, cfg).lives == StartLives - 1
      && FrameAsWritten(s, cfg).lives == StartLives
  {
    var cfg := Config(40.0, 400.0);
    var table := LaneTable(40.0);
    var lanes := table[1 := table[1].(obstacles := [Obstacle(220.0, 40.0, 40.0, 40.0, 2.5)])];
    var s := GameState(StartLives, 0, true, Player(180.0, 40.0), lanes);
    var moved := UpdateObstacles(lanes, cfg.gameWidth);
    assert moved[1].obstacles == [Obstacle(217.5, 40.0, 40.0, 40.0, 2.5)];
    var m := s.(lanes := moved);
    FindLaneOnBoard(moved, 40.0, 40.0, 1);
    assert FirstLaneAt(moved, 40.0, 40.0, 1);
    assert Hits(m.player, moved[1].obstacles[0], cfg);
    assert InDanger(m, cfg);
  }

  /**
    No obstacle of a reachable game is lost: each one, left to move on its
    own, is within [-width, gameWidth] after finitely many frames.
   */
  lemma ObstaclesOfValidGameReenter(s: GameState, cfg: Config, i: int, j: int)
    requires cfg.Valid() && Inv(s, cfg)
    requires 0 <= i < |s.lanes| && 0 <= j < |s.lanes[i].Obstacles()|
    ensures s.lanes[i].Road?
    ensures exists n: nat :: InBand(StepN(s.lanes[i].obstacles[j], s.lanes[i].direction, cfg.gameWidth, n), cfg.gameWidth)
  {
    EventuallyOnScreen(s.lanes[i].obstacles[j], s.lanes[i].direction, cfg.gameWidth);
  }

  /**
    With a 40-pixel tile on a 400-pixel board, four presses of the up
    arrow from the start tile (180, 360) reach row 200 with 40 points.
   */
  lemma FourHopsFromStart(lanes: seq<Lane>)
    ensures var cfg := Config(40.0, 400.0);
      var s0 := FreshState(lanes, cfg);
      var s4 := KeyDown(KeyDown(KeyDown(KeyDown(s0, ArrowUp, cfg), ArrowUp, cfg), ArrowUp, cfg), ArrowUp, cfg);
      && s0.player == Player(180.0, 360.0)
      && s4.player == Player(180.0, 200.0) && s4.score == 40 && s4.active && s4.lives == StartLives
  {
  }
}

=== FILE: generation.dfy ===
/**
  Obstacle generation for a fresh game. Randomness is an injected stream
  of draws in [0, 1), read from a cursor in the order the game reads it:
  per road lane, one draw for the obstacle count, then per obstacle one
  draw for its width, one for its start offset and one for its colour
  (the colour itself is presentation and is not kept).
 */
module Generation {
  import opened Config
  import opened Lanes

  /** Every draw of the stream lies in [0, 1). */
  ghost predicate ValidDraws(rng: nat -> real) {
    forall i: nat :: 0.0 <= rng(i) < 1.0
  }

  const DrawsPerObstacle := 3

  /** floor(r * 3) + 2: two to four obstacles. */
  function ObstacleCount(r: real): (n: int)
    requires 0.0 <= r < 1.0
    ensures 2 <= n <= 4
  {
    (r * 3.0).Floor + 2
  }

  /** tileSize * (floor(r * 2) + 1): one or two tiles. */
  function ObstacleWidth(r: real, tileSize: real): (w: real)
    requires 0.0 <= r < 1.0
    ensures w == tileSize || w == 2.0 * tileSize
  {
    var tiles := (r * 2.0).Floor + 1;
    assert tiles == 1 || tiles == 2;
    tileSize * tiles as real
  }

  /** The even spread i * gameWidth / n added to obstacle i's random offset. */
  function Spread(i: nat, n: nat, gameWidth: real): real
    requires n > 0
  {
    i as real * gameWidth / n as real
  }

  lemma SpreadBounds(i: nat, n: nat, gameWidth: real)
    requires i < n && gameWidth >= 0.0
    ensures 0.0 <= Spread(i, n, gameWidth) < gameWidth || gameWidth == 0.0
    ensures 0.0 <= Spread(i, n, gameWidth) <= gameWidth
  {
  }

  /** An obstacle as generation leaves it in the given lane. */
  predicate Fresh(o: Obstacle, lane: Lane, cfg: Config) {
    && lane.Road?
    && o.y == lane.y
    && o.height == cfg.tileSize
    && (o.width == cfg.tileSize || o.width == 2.0 * cfg.tileSize)
    && o.speed == lane.speed
    && 0.0 <= o.x < 2.0 * cfg.gameWidth
  }

  lemma ScaleBounds(r: real, gameWidth: real)
    requires 0.0 <= r < 1.0 && gameWidth > 0.0
    ensures 0.0 <= r * gameWidth < gameWidth
  {
  }

  /**
    Obstacle i's starting x: the offset draw scaled to the board width,
    plus i/n of the board width. It lies at or past its share of the
    spread, less than one board width beyond it, and so within two board
    widths of the left edge.
   */
  function StartOffset(r: real, i: nat, n: nat, gameWidth: real): (x: real)
    requires 0.0 <= r < 1.0 && i < n && gameWidth > 0.0
    ensures Spread(i, n, gameWidth) <= x < Spread(i, n, gameWidth) + gameWidth
    ensures 0.0 <= x < 2.0 * gameWidth
  {
    var offset := r * gameWidth;
    var spread := Spread(i, n, gameWidth);
    SpreadBounds(i, n, gameWidth);
    ScaleBounds(r, gameWidth);
    assert offset < gameWidth;
    assert spread <= offset + spread < spread + gameWidth;
    offset + spread
  }

  /** Obstacle i of n in a road lane, from the draws starting at `at`. */
  function MakeObstacle(lane: Lane, i: nat, n: nat, cfg: Config, rng: nat -> real, at: nat): (o: Obstacle)
    requires lane.Road? && i < n && cfg.Valid() && ValidDraws(rng)
    ensures Fresh(o, lane, cfg)
    ensures Spread(i, n, cfg.gameWidth) <= o.x < Spread(i, n, cfg.gameWidth) + cfg.gameWidth
  {
    var width := ObstacleWidth(rng(at), cfg.tileSize);
    var x := StartOffset(rng(at + 1), i, n, cfg.gameWidth);
    Obstacle(x, lane.y, width, cfg.tileSize, lane.speed)
  }

  /**
    The n obstacles of a road lane. Each is fresh for the lane and starts
    within its share of the spread; obstacle i takes its width from draw
    at + 3i and its offset from draw at + 3i + 1.
   */
  function MakeObstacles(lane: Lane, n: nat, cfg: Config, rng: nat -> real, at: nat): (obs: seq<Obstacle>)
    requires lane.Road? && cfg.Valid() && ValidDraws(rng)
    ensures |obs| == n
    ensures forall i :: 0 <= i < n ==> Fresh(obs[i], lane, cfg)
    ensures forall i :: 0 <= i < n ==>
      Spread(i, n, cfg.gameWidth) <= obs[i].x < Spread(i, n, cfg.gameWidth) + cfg.gameWidth
    ensures forall i :: 0 <= i < n ==>
      && obs[i].width == ObstacleWidth(rng(at + DrawsPerObstacle * i), cfg.tileSize)
      && obs[i].x == rng(at + DrawsPerObstacle * i + 1) * cfg.gameWidth + Spread(i, n, cfg.gameWidth)
  {
    seq(n, i requires 0 <= i < n => MakeObstacle(lane, i, n, cfg, rng, at + DrawsPerObstacle * i))
  }

  /** One refilled lane and the draw cursor after generating it. */
  datatype Refilled = Refilled(lane: Lane, next: nat)

  /** The refilled lanes and the draw cursor after generating them. */
  datatype Generated = Generated(lanes: seq<Lane>, next: nat)

  /**
    Refill one lane: a road lane gets two to four fresh obstacles, obstacle
    i starting at its random offset plus i/n of the board width; a safe
    lane is left alone and consumes no draws.
   */
  function GenerateLane(lane: Lane, cfg: Config, rng: nat -> real, k: nat): (r: Refilled)
    requires cfg.Valid() && ValidDraws(rng)
    ensures SameTemplate(r.lane, lane)
    ensures lane.Safe? ==> r.lane == lane && r.next == k
    ensures lane.Road? ==>
      var obs := r.lane.obstacles;
      && 2 <= |obs| <= 4
      && r.next == k + 1 + DrawsPerObstacle * |obs|
      && (forall i :: 0 <= i < |obs| ==> Fresh(obs[i], lane, cfg))
      && (forall i :: 0 <= i < |obs| ==>
            Spread(i, |obs|, cfg.gameWidth) <= obs[i].x < Spread(i, |obs|, cfg.gameWidth) + cfg.gameWidth)
  {
    match lane
    case Safe(_) => Refilled(lane, k)
    case Road(_, _, _, _) =>
      var n := ObstacleCount(rng(k));
      var obs := MakeObstacles(lane, n, cfg, rng, k + 1);
      Refilled(lane.(obstacles := obs), k + 1 + DrawsPerObstacle * n)
  }

  /**
    Refill every road lane, in table order, threading the draw cursor.
   */
  function GenerateAll(lanes: seq<Lane>, cfg: Config, rng: nat -> real, k: nat): (r: Generated)
    requires cfg.Valid() && ValidDraws(rng)
    ensures |r.lanes| == |lanes| && r.next >= k
    ensures forall i :: 0 <= i < |lanes| ==> SameTemplate(r.lanes[i], lanes[i])
    ensures forall i :: 0 <= i < |lanes| && lanes[i].Road? ==> 2 <= |r.lanes[i].Obstacles()| <= 4
    ensures forall i, j :: 0 <= i < |lanes| && 0 <= j < |r.lanes[i].Obstacles()| ==>
      Fresh(r.lanes[i].Obstacles()[j], lanes[i], cfg)
    decreases |lanes|
  {
    if |lanes| == 0 then Generated([], k)
    else
      var first := GenerateLane(lanes[0], cfg, rng, k);
      var rest := GenerateAll(lanes[1..], cfg, rng, first.next);
      Generated([first.lane] + rest.lanes, rest.next)
  }
}

=== FILE: geometry.dfy ===
/** Axis-aligned boxes and the overlap test used for every collision. */
module Geometry {

  datatype Box = Box(x: real, y: real, width: real, height: real)

  /**
    Strict overlap on all four sides: boxes that only share an edge
    do not overlap.
   */
  predicate Overlaps(a: Box, b: Box) {
    && a.x < b.x + b.width
    && a.x + a.width > b.x
    && a.y < b.y + b.height
    && a.y + a.height > b.y
  }

  /** The point (px, py) lies strictly inside the box. */
  predicate Inside(b: Box, px: real, py: real) {
    b.x < px < b.x + b.width && b.y < py < b.y + b.height
  }

  predicate NonDegenerate(b: Box) {
    b.width > 0.0 && b.height > 0.0
  }

  function Max(a: real, b: real): real { if a < b then b else a }

  function Min(a: real, b: real): real { if a < b then a else b }

  /** Overlap is a symmetric relation. */
  lemma OverlapsSymmetric(a: Box, b: Box)
    ensures Overlaps(a, b) <==> Overlaps(b, a)
  {
  }

  /**
    The four-inequality test means exactly that the open interiors of the
    two boxes share a point.
   */
  lemma OverlapsIffSharedInterior(a: Box, b: Box)
    requires NonDegenerate(a) && NonDegenerate(b)
    ensures Overlaps(a, b) <==> exists px, py :: Inside(a, px, py) && Inside(b, px, py)
  {
    if Overlaps(a, b) {
      var px := (Max(a.x, b.x) + Min(a.x + a.width, b.x + b.width)) / 2.0;
      var py := (Max(a.y, b.y) + Min(a.y + a.height, b.y + b.height)) / 2.0;
      assert Inside(a, px, py) && Inside(b, px, py);
    }
  }

  /** Boxes that merely touch along an edge, vertical or horizontal, do not overlap. */
  lemma TouchingDoesNotOverlap(a: Box, b: Box)
    requires a.x + a.width == b.x || a.y + a.height == b.y
    ensures !Overlaps(a, b) && !Overlaps(b, a)
  {
  }
}

=== FILE: input.dfy ===
/**
  Key presses. An arrow key moves the player one tile, clamped to the
  board; upward progress scores; landing on the top row ends the game
  as a win. Presses while the game is over change nothing.
 */
module Input {
  import opened Config
  import opened Geometry
  import opened State

  datatype Key = ArrowUp | ArrowDown | ArrowLeft | ArrowRight | OtherKey

  /**
    The player after one key: moved one tile in the key's direction,
    clamped to the board, along one axis only.
   */
  function MovePlayer(p: Player, key: Key, cfg: Config): (r: Player)
    requires cfg.Valid()
    ensures InBounds(p, cfg) ==> InBounds(r, cfg)
    ensures key.ArrowUp? || key.ArrowDown? ==> r.x == p.x
    ensures !(key.ArrowUp? || key.ArrowDown?) ==> r.y == p.y
    ensures key.OtherKey? ==> r == p
    ensures key.ArrowUp? && p.y >= cfg.tileSize ==> r.y == p.y - cfg.tileSize
    ensures key.ArrowUp? && p.y < cfg.tileSize ==> r.y == 0.0
    ensures key.ArrowDown? && p.y <= cfg.GameHeight() - 2.0 * cfg.tileSize ==> r.y == p.y + cfg.tileSize
    ensures key.ArrowDown? && p.y > cfg.GameHeight() - 2.0 * cfg.tileSize ==> r.y == cfg.GameHeight() - cfg.tileSize
    ensures key.ArrowLeft? && p.x >= cfg.tileSize ==> r.x == p.x - cfg.tileSize
    ensures key.ArrowLeft? && p.x < cfg.tileSize ==> r.x == 0.0
    ensures key.ArrowRight? && p.x <= cfg.gameWidth - 2.0 * cfg.tileSize ==> r.x == p.x + cfg.tileSize
    ensures key.ArrowRight? && p.x > cfg.gameWidth - 2.0 * cfg.tileSize ==> r.x == cfg.gameWidth - cfg.tileSize
    ensures InBounds(p, cfg) ==>
      && (key.ArrowUp? ==> r.y <= p.y)
      && (key.ArrowDown? ==> r.y >= p.y)
      && (key.ArrowLeft? ==> r.x <= p.x)
      && (key.ArrowRight? ==> r.x >= p.x)
  {
    var step := cfg.tileSize;
    match key
    case ArrowUp => p.(y := Max(0.0, p.y - step))
    case ArrowDown => p.(y := Min(cfg.GameHeight() - cfg.tileSize, p.y + step))
    case ArrowLeft => p.(x := Max(0.0, p.x - step))
    case ArrowRight => p.(x := Min(cfg.gameWidth - cfg.tileSize, p.x + step))
    case OtherKey => p
  }

  /**
    The key handler. Inactive: nothing changes. Active: the player moves,
    the score rises by exactly 10 when the move went up, and the game
    stops when the player stands on the top row. Lives and lanes are
    never touched.
   */
  function KeyDown(s: GameState, key: Key, cfg: Config): (r: GameState)
    requires cfg.Valid()
    ensures !s.active ==> r == s
    ensures r.lives == s.lives && r.lanes == s.lanes
    ensures s.active ==> r.player == MovePlayer(s.player, key, cfg)
    ensures InBounds(s.player, cfg) ==> InBounds(r.player, cfg)
    ensures s.active ==> r.score == s.score + (if r.player.y < s.player.y then UpwardPoints else 0)
    ensures s.active ==> (r.active <==> r.player.y != 0.0)
  {
    if !s.active then s
    else
      var p := MovePlayer(s.player, key, cfg);
      var score := if p.y < s.player.y then s.score + UpwardPoints else s.score;
      s.(player := p, score := score, active := p.y != 0.0)
  }

  /**
    Scoring from the key's point of view: a press earns points exactly
    when the game is active, the key is up and the player is not already
    on the top row; every other press, including a clamped one, earns
    nothing.
   */
  lemma ScoreOnlyForUpwardMove(s: GameState, key: Key, cfg: Config)
    requires cfg.Valid() && InBounds(s.player, cfg)
    ensures KeyDown(s, key, cfg).score == s.score + UpwardPoints <==> s.active && key.ArrowUp? && s.player.y > 0.0
    ensures KeyDown(s, key, cfg).score != s.score + UpwardPoints ==> KeyDown(s, key, cfg).score == s.score
  {
  }

  /** A key press ends the game exactly when it puts the player on the top row. */
  lemma WinOnTopRow(s: GameState, key: Key, cfg: Config)
    requires cfg.Valid() && s.active
    ensures !KeyDown(s, key, cfg).active <==> MovePlayer(s.player, key, cfg).y == 0.0
  {
  }
}

=== FILE: lanes.dfy ===
/**
  The lane table and the lookup of the lane a vertical position falls in.
  Lanes are listed top to bottom; lane i occupies the rows
  [i * tileSize, (i + 1) * tileSize).
 */
module Lanes {
  import opened Options
  import opened Geometry

  datatype Direction = Left | Right

  /** A hammer travelling along a road lane. */
  datatype Obstacle = Obstacle(x: real, y: real, width: real, height: real, speed: real) {
    function Bounds(): Box {
      Box(x, y, width, height)
    }
  }

  /**
    A safe lane carries nothing; a road lane moves all of its obstacles
    in one direction at the lane's speed.
   */
  datatype Lane =
    | Safe(y: real)
    | Road(y: real, direction: Direction, speed: real, obstacles: seq<Obstacle>)
  {
    function Obstacles(): seq<Obstacle> {
      if Road? then obstacles else []
    }

    /** The lane with its obstacle list emptied. */
    function Template(): Lane {
      if Road? then this.(obstacles := []) else this
    }
  }

  /** Two lanes agree on everything but their obstacles. */
  predicate SameTemplate(a: Lane, b: Lane) {
    a.Template() == b.Template()
  }

  /** The ten lanes of the board, top goal lane first, start lane last. */
  function LaneTable(tileSize: real): (r: seq<Lane>)
    ensures |r| == 10
    ensures forall i :: 0 <= i < |r| ==> r[i].y == i as real * tileSize && r[i].Obstacles() == []
    ensures r[0].Safe? && r[9].Safe?
    ensures forall i :: 0 <= i < |r| && r[i].Road? ==> r[i].speed > 0.0
  {
    [ Safe(0.0 * tileSize),
      Road(1.0 * tileSize, Left, 2.5, []),
      Road(2.0 * tileSize, Right, 1.8, []),
      Safe(3.0 * tileSize),
      Road(4.0 * tileSize, Left, 1.5, []),
      Road(5.0 * tileSize, Right, 2.2, []),
      Safe(6.0 * tileSize),
      Road(7.0 * tileSize, Left, 1.2, []),
      Road(8.0 * tileSize, Right, 2.8, []),
      Safe(9.0 * tileSize) ]
  }

  /** Lanes with the layout of the table, whatever their obstacles. */
  predicate Shaped(lanes: seq<Lane>, tileSize: real) {
    var table := LaneTable(tileSize);
    |lanes| == |table| && forall i :: 0 <= i < |lanes| ==> SameTemplate(lanes[i], table[i])
  }

  /** The vertical span of the lane contains y. */
  predicate InLane(lane: Lane, tileSize: real, y: real) {
    lane.y <= y < lane.y + tileSize
  }

  /** Lane i is the first lane, in table order, whose span contains y. */
  predicate FirstLaneAt(lanes: seq<Lane>, tileSize: real, y: real, i: int) {
    && 0 <= i < |lanes|
    && InLane(lanes[i], tileSize, y)
    && forall j :: 0 <= j < i ==> !InLane(lanes[j], tileSize, y)
  }

  /** The index of the first lane whose span contains y, if any. */
  function FindLane(lanes: seq<Lane>, tileSize: real, y: real): (r: Option<nat>)
    ensures r.Some? ==> FirstLaneAt(lanes, tileSize, y, r.value)
    ensures r.None? ==> forall j :: 0 <= j < |lanes| ==> !InLane(lanes[j], tileSize, y)
  {
    if |lanes| == 0 then None
    else if InLane(lanes[0], tileSize, y) then Some(0)
    else match FindLane(lanes[1..], tileSize, y)
      case None => None
      case Some(i) => Some(i + 1)
  }

  lemma MulStrictMono(a: real, b: real, t: real)
    requires a < b && t > 0.0
    ensures a * t < b * t
  {
  }

  /** Lane j starts at row j * tileSize, for every lane. */
  predicate Stacked(lanes: seq<Lane>, tileSize: real) {
    forall j :: 0 <= j < |lanes| ==> lanes[j].y == j as real * tileSize
  }

  lemma ShapedIsStacked(lanes: seq<Lane>, tileSize: real)
    requires Shaped(lanes, tileSize)
    ensures Stacked(lanes, tileSize)
    ensures forall j :: 0 <= j < |lanes| ==> (lanes[j].Safe? <==> LaneTable(tileSize)[j].Safe?)
  {
  }

  /** A row inside lane i's span is in no earlier lane. */
  lemma NotInEarlierLane(lanes: seq<Lane>, tileSize: real, y: real, i: int, j: int)
    requires Stacked(lanes, tileSize) && tileSize > 0.0
    requires 0 <= j < i < |lanes| && i as real * tileSize <= y
    ensures !InLane(lanes[j], tileSize, y)
  {
    assert (j + 1) as real * tileSize <= i as real * tileSize by {
      if j + 1 < i { MulStrictMono((j + 1) as real, i as real, tileSize); }
    }
  }

  /**
    On a board shaped like the table, a row inside lane i's span is found
    in lane i; no other lane contains it.
   */
  lemma FindLaneOnBoard(lanes: seq<Lane>, tileSize: real, y: real, i: int)
    requires Shaped(lanes, tileSize) && tileSize > 0.0
    requires 0 <= i < 10 && i as real * tileSize <= y < (i + 1) as real * tileSize
    ensures FindLane(lanes, tileSize, y) == Some(i)
  {
    ShapedIsStacked(lanes, tileSize);
    forall j | 0 <= j < i
      ensures !InLane(lanes[j], tileSize, y)
    {
      NotInEarlierLane(lanes, tileSize, y, i, j);
    }
    assert FirstLaneAt(lanes, tileSize, y, i);
  }

  /** A row above or below the board lies in no lane. */
  lemma FindLaneOffBoard(lanes: seq<Lane>, tileSize: real, y: real)
    requires Shaped(lanes, tileSize) && tileSize > 0.0
    requires y < 0.0 || y >= 10.0 * tileSize
    ensures FindLane(lanes, tileSize, y) == None
  {
  }

  /** The starting row lies in the bottom lane, which is safe. */
  lemma StartRowIsSafe(lanes: seq<Lane>, tileSize: real)
    requires Shaped(lanes, tileSize) && tileSize > 0.0
    ensures FindLane(lanes, tileSize, 9.0 * tileSize) == Some(9)
    ensures lanes[9].Safe?
  {
  }
}

=== FILE: motion.dfy ===
/**
  Obstacle motion. Every tick each obstacle of a road lane moves by its
  speed in the lane's direction and, once it is fully off the board,
  re-enters at the opposite edge.
 */
module Motion {
  import opened Lanes

  /**
    One tick for one obstacle. Only x changes; the new x is the shifted
    position, or the entry edge of the other side once the shifted
    obstacle has left the board completely.
   */
  function StepObstacle(o: Obstacle, dir: Direction, gameWidth: real): (r: Obstacle)
    ensures r == o.(x := r.x)
    ensures dir == Left ==>
      if o.x - o.speed + o.width < 0.0 then r.x == gameWidth else r.x == o.x - o.speed
    ensures dir == Right ==>
      if o.x + o.speed > gameWidth then r.x == -o.width else r.x == o.x + o.speed
  {
    match dir
    case Left =>
      var x := o.x - o.speed;
      o.(x := if x + o.width < 0.0 then gameWidth else x)
    case Right =>
      var x := o.x + o.speed;
      o.(x := if x > gameWidth then -o.width else x)
  }

  /** One tick for one lane: a safe lane is untouched. */
  function UpdateLane(lane: Lane, gameWidth: real): (r: Lane)
    ensures SameTemplate(r, lane)
    ensures |r.Obstacles()| == |lane.Obstacles()|
    ensures lane.Road? ==> forall j :: 0 <= j < |r.obstacles| ==>
      r.obstacles[j] == StepObstacle(lane.obstacles[j], lane.direction, gameWidth)
  {
    match lane
    case Safe(_) => lane
    case Road(_, dir, _, obs) =>
      lane.(obstacles := seq(|obs|, j requires 0 <= j < |obs| => StepObstacle(obs[j], dir, gameWidth)))
  }

  /** The obstacle-motion part of a tick, over all lanes. */
  function UpdateObstacles(lanes: seq<Lane>, gameWidth: real): (r: seq<Lane>)
    ensures |r| == |lanes|
    ensures forall i :: 0 <= i < |r| ==> r[i] == UpdateLane(lanes[i], gameWidth)
  {
    seq(|lanes|, i requires 0 <= i < |lanes| => UpdateLane(lanes[i], gameWidth))
  }

  /** The obstacle's box lies horizontally within [-width, hi]. */
  predicate InBand(o: Obstacle, hi: real) {
    -o.width <= o.x <= hi
  }

  /** Speed and width that make motion well behaved. */
  predicate Sane(o: Obstacle) {
    o.speed >= 0.0 && o.width >= 0.0
  }

  /**
    Motion keeps an obstacle within [-width, hi] for any right bound hi
    at or beyond the board's right edge; hi = gameWidth gives the
    on-screen band.
   */
  lemma StepPreservesBand(o: Obstacle, dir: Direction, gameWidth: real, hi: real)
    requires Sane(o) && 0.0 <= gameWidth <= hi
    requires InBand(o, hi)
    ensures InBand(StepObstacle(o, dir, gameWidth), hi)
  {
  }

  predicate AllSane(lanes: seq<Lane>) {
    forall i, j :: 0 <= i < |lanes| && 0 <= j < |lanes[i].Obstacles()| ==> Sane(lanes[i].Obstacles()[j])
  }

  /** Every obstacle has a positive speed, so it never stands still. */
  predicate AllMoving(lanes: seq<Lane>) {
    forall i, j :: 0 <= i < |lanes| && 0 <= j < |lanes[i].Obstacles()| ==> lanes[i].Obstacles()[j].speed > 0.0
  }

  predicate AllInBand(lanes: seq<Lane>, hi: real) {
    forall i, j :: 0 <= i < |lanes| && 0 <= j < |lanes[i].Obstacles()| ==> InBand(lanes[i].Obstacles()[j], hi)
  }

  /**
    Motion changes nothing but obstacle x: safe lanes are untouched, every
    lane keeps its template and its number of obstacles, and every
    obstacle keeps its y, width, height and speed.
   */
  lemma UpdateKeepsShape(lanes: seq<Lane>, gameWidth: real)
    ensures var r := UpdateObstacles(lanes, gameWidth);
      && (forall i :: 0 <= i < |lanes| ==> SameTemplate(r[i], lanes[i]))
      && (forall i :: 0 <= i < |lanes| && lanes[i].Safe? ==> r[i] == lanes[i])
      && (forall i :: 0 <= i < |lanes| ==> |r[i].Obstacles()| == |lanes[i].Obstacles()|)
      && (forall i, j :: 0 <= i < |lanes| && 0 <= j < |lanes[i].Obstacles()| ==>
            r[i].Obstacles()[j] == lanes[i].Obstacles()[j].(x := r[i].Obstacles()[j].x))
    ensures AllSane(lanes) ==> AllSane(UpdateObstacles(lanes, gameWidth))
    ensures AllMoving(lanes) ==> AllMoving(UpdateObstacles(lanes, gameWidth))
  {
  }

  /** The band is kept for every obstacle of every lane. */
  lemma UpdatePreservesBand(lanes: seq<Lane>, gameWidth: real, hi: real)
    requires AllSane(lanes) && 0.0 <= gameWidth <= hi
    requires AllInBand(lanes, hi)
    ensures AllInBand(UpdateObstacles(lanes, gameWidth), hi)
  {
  }

  /** n ticks of one obstacle. */
  function StepN(o: Obstacle, dir: Direction, gameWidth: real, n: nat): (r: Obstacle)
    ensures r == o.(x := r.x)
    decreases n
  {
    if n == 0 then o else StepN(StepObstacle(o, dir, gameWidth), dir, gameWidth, n - 1)
  }

  /**
    Helper for re-entry: a moving obstacle that is at most k steps past
    the point where it reaches the band gets there.
   */
  lemma {:induction false} ReachesBandWithin(o: Obstacle, dir: Direction, gameWidth: real, k: nat)
    requires o.speed > 0.0 && o.width >= 0.0 && gameWidth >= 0.0
    requires dir == Left ==> o.x - gameWidth <= k as real * o.speed
    requires dir == Right ==> -o.width - o.x <= k as real * o.speed
    ensures exists n: nat :: InBand(StepN(o, dir, gameWidth, n), gameWidth)
    decreases k
  {
    if InBand(o, gameWidth) {
      assert StepN(o, dir, gameWidth, 0) == o;
    } else {
      var o' := StepObstacle(o, dir, gameWidth);
      if InBand(o', gameWidth) {
        assert StepN(o, dir, gameWidth, 1) == o';
      } else {
        assert k > 0;
        assert (k - 1) as real * o.speed == k as real * o.speed - o.speed;
        ReachesBandWithin(o', dir, gameWidth, k - 1);
        var n: nat :| InBand(StepN(o', dir, gameWidth, n), gameWidth);
        assert StepN(o, dir, gameWidth, n + 1) == StepN(o', dir, gameWidth, n);
      }
    }
  }

  /**
    No obstacle is lost: whatever its starting x, an obstacle with
    positive speed is back within [-width, gameWidth] after finitely many
    ticks.
   */
  lemma EventuallyOnScreen(o: Obstacle, dir: Direction, gameWidth: real)
    requires o.speed > 0.0 && o.width >= 0.0 && gameWidth >= 0.0
    ensures exists n: nat :: InBand(StepN(o, dir, gameWidth, n), gameWidth)
  {
    var d := if dir == Left then o.x - gameWidth else -o.width - o.x;
    var k: nat := if d <= 0.0 then 0 else (d / o.speed).Floor + 1;
    if d > 0.0 {
      assert d / o.speed < k as real;
      assert d == (d / o.speed) * o.speed;
      assert (d / o.speed) * o.speed <= k as real * o.speed;
    }
    ReachesBandWithin(o, dir, gameWidth, k);
  }
}

=== FILE: options.dfy ===
/** The conventional Some/None wrapper, used for "no lane found" and "no obstacle hit". */
module Options {

  datatype Option<+T> = None | Some(value: T)
}

=== FILE: state.dfy ===
/**
  The whole game state: lives, score, the active flag, the player's
  position and the lanes with their obstacles. The player is always one
  tile wide and tall and moves one tile per key press.
 */
module State {
  import opened Config
  import opened Geometry
  import opened Lanes

  datatype Player = Player(x: real, y: real)

  datatype GameState = GameState(
    lives: int,
    score: int,
    active: bool,
    player: Player,
    lanes: seq<Lane>)

  const StartLives := 3
  const UpwardPoints := 10

  function PlayerBox(p: Player, cfg: Config): Box {
    Box(p.x, p.y, cfg.tileSize, cfg.tileSize)
  }

  function StartPlayer(cfg: Config): Player {
    Player(cfg.StartX(), cfg.StartY())
  }

  /** The player's box lies entirely on the board. */
  predicate InBounds(p: Player, cfg: Config) {
    0.0 <= p.x <= cfg.gameWidth - cfg.tileSize && 0.0 <= p.y <= cfg.GameHeight() - cfg.tileSize
  }

  lemma StartInBounds(cfg: Config)
    requires cfg.Valid()
    ensures InBounds(StartPlayer(cfg), cfg)
    ensures StartPlayer(cfg).y == 9.0 * cfg.tileSize
  {
  }
}
